=== FILE: README.md ===
# Quiz, selection wheel and glossary highlighting of the poem presentation

This project models the three pieces of logic inside the application component
(`src/app.component.js`) of an interactive presentation of the poem
"عدمتك يا قلب" by Bashshar ibn Burd:

- the **quiz state machine**: the `currentQuestionIndex`, `selectedAnswer`,
  `score`, `quizFinished` and `showConfetti` signals become one immutable
  `Quiz.State` record; `selectAnswer`, `resetQuiz`, `closeQuiz` and the bodies of
  their `setTimeout` callbacks are pure functions, and `getOptionClass` becomes a
  classification into four looks;
- the **deferred callbacks**: a session record holds the callbacks still
  pending. Any pending callback may fire next, because which one the browser runs
  first depends on wall-clock delays. `QuizTimers` runs the callbacks as the
  component does, with no staleness check. `QuizGenerations` adds the
  generation check the component lacks (see Findings);
- the **selection wheel**: `initializeWheel` lays out 34 numbered segments in
  exact rational angles. `spinWheel` draws among the active segments only, using
  the injected value of `Math.random()`. Its deferred completion retires the
  drawn segment. `Wheel.Play` runs a session of spins, each completed before
  the next;
- **glossary highlighting** (`getHighlightedVersePart`): the split of a verse
  half on the alternation of all glossary terms is modelled as a leftmost-first
  scanner that tries the terms in list order. Each piece that equals a term is
  paired with its definition.

Modules: `Options` (nullable values), `Quiz`, `QuizTimers`, `QuizGenerations`,
`Wheel`, `Glossary`.

## Model

| member | source | states |
|---|---|---|
| Quiz.SelectAnswer | src/app.component.js:419-441 | If the selected answer is truthy (non-null and non-empty), nothing changes and nothing is scheduled. Otherwise the option becomes the selection. The score rises by exactly one iff the option is the current question's answer. Index, finished flag and confetti stay the same. A correct answer schedules the advance continuation; a wrong one schedules the clearing continuation. |
| Quiz.ResetQuiz | src/app.component.js:443-448 | From any state, the result is index 0, no selection, score 0 and not finished; the confetti flag is left untouched. |
| Quiz.CloseQuiz | src/app.component.js:413-417 | Hides the confetti, changes nothing else, and schedules a deferred reset. |
| Quiz.RunCallback | src/app.component.js:427-440 | Correct-answer continuation: below the last index it moves to the next question and clears the selection; at the last index it sets finished and confetti and keeps the index. Wrong-answer continuation: only clears the selection. Reset callback: resets the quiz. Answer continuations keep the score and keep the index inside the bank. |
| Quiz.OptionLook | src/app.component.js:491-510 | Each option gets exactly one look. Neutral iff nothing is selected. Dimmed iff something else is selected. Shown correct iff it is the selection and the answer. Shown incorrect iff it is the selection and not the answer. |
| Quiz.AtMostOneHighlighted | src/app.component.js:491-510 | Once an answer is selected, any two options that are not dimmed are equal to each other and to the selection. |
| Quiz.CoherentScoreBounded | src/app.component.js:419-448 | Under the quiz invariant the score is at most the bank size, and equals it once the quiz is finished. |
| QuizTimers.Select | src/app.component.js:419-441 | The session's state becomes the one `selectAnswer` produces, and its pending callbacks gain exactly the one callback `selectAnswer` schedules, if any. |
| QuizTimers.Close | src/app.component.js:413-417 | Confetti is hidden and exactly one reset callback joins the pending ones. |
| QuizTimers.Fire | src/app.component.js:427-440 | Firing pending callback k runs its body on the state, with no session check, and removes exactly that callback. |
| QuizTimers.StartConsistent | src/app.component.js:51-55 | The initial signal values satisfy the quiz invariant for every well-formed bank. |
| QuizTimers.SelectConsistent | src/app.component.js:419-441 | While no reset is pending, selecting a non-empty option keeps the invariant. The invariant says: score = index + 1 if the current answer is selected, else index; at most one answer continuation is pending; and it matches the selection. |
| QuizTimers.FireConsistent | src/app.component.js:427-440 | While no reset is pending, firing any pending callback keeps the invariant, so the index stays below the bank size. |
| QuizTimers.WrongAnswerRetry | src/app.component.js:436-440 | A wrong answer schedules only the clearing continuation. Once it has fired, the session is exactly as before: same question, same score, no selection. So retries are unlimited. |
| QuizTimers.PerfectRun | src/app.component.js:419-435 | After k correct answers, each continuation fired in turn, the score is k and nothing is pending. The index is k, or the last index once k reaches the bank size. The quiz is finished iff k is the bank size. |
| QuizTimers.TwoQuestionScenario | src/app.component.js:419-440 | With two questions, answering the first wrongly, then correctly, then the second correctly ends at index 1 with score 2, finished. |
| QuizTimers.StaleAdvanceAfterClose | src/app.component.js:413-435 | Answer question 1 correctly, then close the quiz, and let the reset fire before the correct-answer continuation. The continuation then moves the fresh quiz to index 1 with score 0, which breaks the invariant. |
| QuizTimers.ConfettiSurvivesReset | src/app.component.js:413-448 | On a one-question quiz closed after the last correct answer but before its continuation, the continuation finishes the quiz and raises the confetti. The reset that fires next gives index 0, no selection, score 0, not finished, with the confetti still raised. |
| QuizGenerations.Select | src/app.component.js:419-441 | Same state change as `selectAnswer`. The scheduled callback is tagged with the current generation. |
| QuizGenerations.Close | src/app.component.js:413-417 | Confetti is hidden and one reset tagged with the current generation joins the pending ones. |
| QuizGenerations.Fire | src/app.component.js:416-448 | A reset resets the quiz and starts a new generation. An answer callback from an older generation leaves the state as it is. A current one runs its body. Exactly the fired timer is removed. |
| QuizGenerations.StartConsistent | src/app.component.js:51-55 | The initial session satisfies the guarded invariant. |
| QuizGenerations.SelectConsistent | src/app.component.js:419-441 | Selecting a non-empty option keeps the guarded invariant, with resets pending or not. |
| QuizGenerations.CloseConsistent | src/app.component.js:413-417 | Closing the quiz keeps the guarded invariant. |
| QuizGenerations.FireConsistent | src/app.component.js:416-448 | Firing any pending timer, in any order and with resets interleaved, keeps the guarded invariant. |
| QuizGenerations.ScoreBounded | src/app.component.js:419-448 | Under every interleaving of user actions and timers, the score stays within the bank size. |
| QuizGenerations.StaleAdvanceDropped | src/app.component.js:413-448 | In the interleaving of `StaleAdvanceAfterClose`, the late continuation is stale and dropped, so the fresh quiz stays at question 1 with score 0. |
| QuizGenerations.ConfettiSurvivesReset | src/app.component.js:413-448 | The guard leaves the other order of the same race alone: a continuation that fires between the close and its reset is current and runs, and the confetti it raises is still up after the reset, over a quiz at index 0 with score 0, not finished. |
| Wheel.InitializeWheel | src/app.component.js:513-554 | Builds exactly 34 segments, all active. Segment i has number i+1, colour `colors[i % 4]`, span from i·360/34 to (i+1)·360/34, label angle i·360/34 + 180/34 and large-arc flag 0. Rotation becomes 0, the selected number becomes null, and the spinning flag is unchanged. |
| Wheel.LabelsCentredAndSpansAbut | src/app.component.js:521-535 | Each label angle is its span's midpoint and each span is 360/34 wide. Consecutive spans share their boundary, the first starts at 0 and the last ends at 360. |
| Wheel.SpansTileCircle | src/app.component.js:516-523 | Every angle in [0, 360) lies in the span of exactly one segment: no gaps, no overlaps. |
| Wheel.ActiveSegments | src/app.component.js:569 | A segment is in the filtered list iff it is one of the wheel's segments and is active; the list is no longer than the wheel's. |
| Wheel.ActiveSegmentsCounts | src/app.component.js:569 | Each active segment occurs in the filtered list exactly as often as among the wheel's segments, and no inactive one occurs, so the filter neither drops nor duplicates an active segment. |
| Wheel.ActiveSegmentsKeepOrder | src/app.component.js:569 | The filter keeps the wheel's order: if the segments' numbers increase along the wheel, they increase along the filtered list. |
| Wheel.ActiveSegmentsInOrder | src/app.component.js:569 | On a wheel numbered by position, the numbers of the filtered active segments increase along the list. |
| Wheel.DrawIndex | src/app.component.js:575 | `Math.floor(Math.random() * n)` lies in [0, n) for a random value in [0, 1). |
| Wheel.DrawIndexUniform | src/app.component.js:575 | Over exact reals, index k is drawn exactly when the random value lies in [k/n, (k+1)/n). Each of these intervals has width 1/n, so the draw is uniform. |
| Wheel.SpinWheel | src/app.component.js:566-592 | While spinning, or when no segment is active, nothing changes and no completion is scheduled. Otherwise the completion carries the number of a currently active segment: the one at index `DrawIndex(u, n)` of the filtered active segments, n being their count. The wheel becomes spinning with no selected number and the new rotation, and its segments are unchanged. |
| Wheel.CompleteSpin | src/app.component.js:593-599 | Spinning stops and the drawn number is published. Segments carrying that number become inactive; every other segment is unchanged. |
| Wheel.CompleteRetiresNumber | src/app.component.js:593-599 | With segments numbered by position, completion keeps the numbering and removes exactly the drawn number from the active numbers. |
| Wheel.AllInactiveIffNoNumbers | src/app.component.js:73 | `areAllSegmentsInactive`, modelled as the predicate `Wheel.AllInactive` (no segment is active), holds iff no number is left to draw. |
| Wheel.SpinThenComplete | src/app.component.js:566-600 | Spins one settled wheel with one throw (random value and new rotation) and runs its completion. Either no number is left and the wheel is unchanged, or one active number is drawn and removed from the active numbers, and the wheel is settled and numbered again. |
| Wheel.Play | src/app.component.js:566-600 | Over sequential spins from a settled wheel, published numbers never repeat, and each was active at the start. The active numbers at the end are those at the start minus the published ones. The number of publications is the smaller of the spin count and the active count. |
| Wheel.OnInit | src/app.component.js:66-80 | Initialising the wheel the signals start with gives 34 laid-out, active segments, not spinning, rotation 0 and no selected number: a wheel that meets the requirements of `ThirtyFourSpinsExhaust`. |
| Wheel.ThirtyFourSpinsExhaust | src/app.component.js:513-600 | From a freshly initialised wheel, 34 completed spins publish 34 numbers and leave every segment inactive, and a 35th spin is a no-op. |
| Glossary.Terms | src/app.component.js:478 | The term list has one entry per glossary entry, in order. |
| Glossary.FirstMatch | src/app.component.js:479-480 | Returns the first term in list order that the text starts with, or none iff no term does. |
| Glossary.SplitFrom | src/app.component.js:479-480 | The scan's pieces join back to the gathered text plus the rest of the input. Pieces alternate between text and matched terms: odd positions hold terms, and even positions contain no term. Matches are cut leftmost first: no term matches at any position of a text piece against the input that follows, and each matched piece is the first term, in list order, that the remaining input starts with. |
| Glossary.Split | src/app.component.js:479-480 | `part.split(regex)` joins back to `part`. There is an odd number of pieces. Every odd piece is a glossary term, and no even piece contains one. Matches are cut leftmost first, each the first term in list order that matches where it starts. The term list is non-empty, as the component's glossary is. |
| Glossary.SplitFromUnique | src/app.component.js:479-480 | Any pieces that join to the gathered text plus the input, alternate text and terms, and keep the scan order equal the scan's pieces. |
| Glossary.SplitUnique | src/app.component.js:479-480 | The split is determined by its contract: any odd-length piece list that joins to `part` and is leftmost first equals `Split(part, terms)`. |
| Glossary.OverlappingTerms | src/app.component.js:479-480 | With terms "bc" then "c", "abc" splits into "a", "bc", "": the leftmost match wins, and "c" is not cut out of it. |
| Glossary.Lookup | src/app.component.js:482 | Returns the definition of the first entry whose term equals the piece, or none iff no entry has that term. |
| Glossary.Classify | src/app.component.js:481-484 | A piece becomes a word object iff some entry has it as term, and it shows the piece's text either way. A word object carries the definition of the first entry with that term. |
| Glossary.HighlightedVersePart | src/app.component.js:477-486 | Joining the pieces, strings as they are and objects by `word`, reproduces the input. The objects are exactly the odd pieces, and each carries the definition of the first entry with that term. No plain piece contains a term. Words are cut leftmost first: no term matches inside a plain piece against the text shown after it, and each word is the first term, in glossary order, that the text shown from it onwards begins with. |

## Left out

- SVG path strings and label coordinates (`Math.cos`, `Math.sin`, `Math.PI`): floating-point trigonometry for rendering only. A segment keeps the angles they are computed from.
- Angles are exact rationals; the component computes them in IEEE doubles, where 360/34 is rounded.
- The rotation target of `spinWheel` (full turns, centring correction, random offset, `%` on doubles) and the unused `currentRotation`: the new rotation is an opaque parameter of `Wheel.SpinWheel`, and the two random draws behind it are left out.
- Timer durations (300, 1000, 1500 and 6000 ms) and the CSS transition strings. Any pending callback may fire next. `QuizTimers.StaleAdvanceAfterClose` picks the order the durations produce when the quiz is closed within 1.2 s of a correct answer.
- Modal and tab visibility toggles (`openQuiz`, `openWheel`, `closeWheel`, card and verse viewer), and the DOM scroll in `openVerseViewer`: UI plumbing. `closeQuiz` is modelled without its visibility flag.
- The static content (introduction, poet, summary, poem, glossary and quiz texts) and `isObject`: data, not logic. The bank's shape is the precondition `Quiz.WellFormedBank`, and the glossary's shape is `Glossary.ValidGlossary`.
- Glossary.HighlightedVersePart: regular-expression metacharacters in terms and matching by UTF-16 code unit are not modelled. The glossary's terms are plain Arabic words from the Basic Multilingual Plane, so characters and code units coincide.
- QuizTimers.SelectConsistent: requires the chosen option to be non-empty. The guard in `selectAnswer` tests truthiness, so an empty-string selection would not block a second answer. Every option the bank offers is non-empty.
- QuizGenerations.SelectConsistent: the same non-empty-option precondition as in the as-written module.
- The generation guard of `QuizGenerations` drops only answer callbacks that fire after the deferred reset. A continuation that fires between `closeQuiz` and its reset still runs, and `resetQuiz` does not lower the confetti it raises, so the reopened quiz can show confetti; `QuizGenerations.ConfettiSurvivesReset` exhibits this. Nothing in the component says whether the confetti should survive, so no corrected behaviour is modelled.
- QuizTimers.FireConsistent: holds only while no deferred reset is pending. With a reset pending, the as-written callbacks can break the invariant; see Findings.
- The component's construction is not modelled beyond the signals' initial values (`Quiz.Initial`, `Wheel.Blank`); `Wheel.OnInit` initialises the latter.
- Wheel.DrawIndexUniform: holds over exact reals only. The component multiplies `Math.random()` by n in IEEE doubles, which rounds: for the double 0.8823529411764706, a value `Math.random()` can return, and n = 34 the product rounds to 30, so the component draws index 30 where the exact floor is 29. Near each boundary k/n the intervals of the component differ from the exact ones by a rounding error, so its draw is uniform only up to that error.
- Wheel.DrawIndex: the same rounding is not modelled; the exact floor stays below n, and so does the floor of the rounded product, because the largest double below 1 times n rounds to a value below n.

Three behaviours of the component that are easy to miss, modelled as written:
- the answer guard is JavaScript truthiness, not a null check;
- the score rises when a correct answer is selected, not when its continuation fires;
- no deferred callback checks whether the quiz was reset after it was scheduled.

## Findings

| source | as written | input that shows it | evidently intended | confidence | as-written member | corrected member |
|---|---|---|---|---|---|---|
| src/app.component.js:413-440 | The reset that `closeQuiz` schedules and the continuations that `selectAnswer` schedules carry no session check. | Answer question 1 correctly, then close the quiz within 1.2 s. The reset runs at 300 ms; the continuation then runs at 1500 ms and moves the fresh quiz to question 2 with score 0. | Answer callbacks that fire after the deferred reset are dropped, so the reopened quiz starts at question 1 with score 0. | medium, not executed | QuizTimers.StaleAdvanceAfterClose | QuizGenerations.FireConsistent |

=== FILE: glossary.dfy ===
/**
  Inline glossary highlighting of a verse half: the text is split on an
  alternation of all glossary terms, the way `String.prototype.split` splits
  on a regular expression with one capturing group, and each piece equal to a
  term becomes a word carrying that term's definition.
*/
module Glossary {
  import opened Options

  datatype Entry = Entry(term: string, definition: string)

  /** A piece of the highlighted verse: plain text, or a glossary word with its definition. */
  datatype Piece = Plain(text: string) | Glossed(word: string, def: string)

  /** `glossary.map(g => g.term)`. */
  function Terms(glossary: seq<Entry>): (r: seq<string>)
    ensures |r| == |glossary|
    ensures forall i :: 0 <= i < |glossary| ==> r[i] == glossary[i].term
  {
    seq(|glossary|, i requires 0 <= i < |glossary| => glossary[i].term)
  }

  /**
    The glossary the regular expression is built from: non-empty, with no
    empty term (an empty alternative would match the empty string everywhere).
  */
  predicate ValidGlossary(glossary: seq<Entry>) {
    && |glossary| > 0
    && forall i :: 0 <= i < |glossary| ==> glossary[i].term != ""
  }

  predicate IsPrefix(t: string, s: string) {
    |t| <= |s| && s[..|t|] == t
  }

  /**
    The alternative the regular expression matches at the start of `s`: the
    first term, in list order, that `s` starts with.
  */
  function FirstMatch(s: string, terms: seq<string>): (r: Option<string>)
    ensures r.None? <==> forall i {:trigger IsPrefix(terms[i], s)} :: 0 <= i < |terms| ==> !IsPrefix(terms[i], s)
    ensures r.Some? ==> exists j {:trigger IsPrefix(terms[j], s)} :: (&& 0 <= j < |terms| && terms[j] == r.value && IsPrefix(terms[j], s)
                                     && forall i {:trigger IsPrefix(terms[i], s)} :: 0 <= i < j ==> !IsPrefix(terms[i], s))
  {
    if |terms| == 0 then None
    else if IsPrefix(terms[0], s) then Some(terms[0])
    else
      var r := FirstMatch(s, terms[1..]);
      assert forall i :: 1 <= i < |terms| ==> terms[i] == terms[1..][i - 1];
      if r.Some? then
        var j :| 0 <= j < |terms[1..]| && terms[1..][j] == r.value && IsPrefix(terms[1..][j], s)
          && forall i :: 0 <= i < j ==> !IsPrefix(terms[1..][i], s);
        assert terms[j + 1] == r.value;
        r
      else r
  }

  /** No term starts anywhere inside `text`. */
  predicate NoTermIn(text: string, terms: seq<string>) {
    forall j, i {:trigger IsPrefix(terms[i], text[j..])} :: 0 <= j <= |text| && 0 <= i < |terms| ==> !IsPrefix(terms[i], text[j..])
  }

  /** No term starts at any position of `text` and matches against `text + rest`. */
  predicate Unmatched(text: string, rest: string, terms: seq<string>) {
    forall j, i {:trigger IsPrefix(terms[i], text[j..] + rest)} :: 0 <= j < |text| && 0 <= i < |terms| ==> !IsPrefix(terms[i], text[j..] + rest)
  }

  /** Concatenation of a sequence of strings. */
  function Join(parts: seq<string>): string {
    if |parts| == 0 then "" else parts[0] + Join(parts[1..])
  }

  /** A prefix of `a` is a prefix of `a + b`. */
  lemma PrefixOfLonger(t: string, a: string, b: string)
    ensures IsPrefix(t, a) ==> IsPrefix(t, a + b)
  {
    if IsPrefix(t, a) {
      assert (a + b)[..|t|] == a[..|t|];
    }
  }

  /** Text gathered before the end of the input or a match contains no term. */
  lemma UnmatchedHasNoTerm(text: string, s: string, terms: seq<string>)
    requires forall i :: 0 <= i < |terms| ==> terms[i] != ""
    requires Unmatched(text, s, terms)
    ensures NoTermIn(text, terms)
  {
    forall j, i | 0 <= j <= |text| && 0 <= i < |terms| ensures !IsPrefix(terms[i], text[j..]) {
      PrefixOfLonger(terms[i], text[j..], s);
    }
  }

  /** A position where no term matches joins the gathered text. */
  lemma UnmatchedExtend(text: string, s: string, terms: seq<string>)
    requires Unmatched(text, s, terms) && |s| > 0
    requires forall i :: 0 <= i < |terms| ==> !IsPrefix(terms[i], s)
    ensures Unmatched(text + [s[0]], s[1..], terms)
  {
    var text' := text + [s[0]];
    forall j | 0 <= j < |text'| ensures text'[j..] + s[1..] == text[j..] + s {
      if j == |text| {
        assert text'[j..] == [s[0]];
      } else {
        assert text'[j..] == text[j..] + [s[0]];
      }
    }
  }

  /** The pieces after a match at the start of `s`: the gathered text, the term, and the split of the rest. */
  lemma MatchStep(text: string, s: string, t: string, rest: seq<string>, terms: seq<string>)
    requires forall i :: 0 <= i < |terms| ==> terms[i] != ""
    requires Unmatched(text, s, terms)
    requires t in terms && IsPrefix(t, s)
    requires Join(rest) == "" + s[|t|..]
    requires |rest| % 2 == 1
    requires forall k :: 0 <= k < |rest| && k % 2 == 1 ==> rest[k] in terms
    requires forall k :: 0 <= k < |rest| && k % 2 == 0 ==> NoTermIn(rest[k], terms)
    ensures var r := [text, t] + rest;
      && Join(r) == text + s
      && |r| % 2 == 1
      && (forall k :: 0 <= k < |r| && k % 2 == 1 ==> r[k] in terms)
      && (forall k :: 0 <= k < |r| && k % 2 == 0 ==> NoTermIn(r[k], terms))
  {
    UnmatchedHasNoTerm(text, s, terms);
  }

  /** Text pieces are unmatched up to the next piece: the pieces in front of `r`, and those of `r`. */
  predicate TextsUnmatched(r: seq<string>, terms: seq<string>) {
    forall k :: 0 <= k < |r| && k % 2 == 0 ==> UnmatchedAt(r, k, terms)
  }

  /** Piece `k` is unmatched up to the pieces after it. */
  predicate UnmatchedAt(r: seq<string>, k: nat, terms: seq<string>)
    requires k < |r|
  {
    Unmatched(r[k], Join(r[k + 1..]), terms)
  }

  /** Each term piece is the first match, in list order, where it starts. */
  predicate TermsFirst(r: seq<string>, terms: seq<string>) {
    forall k :: 0 <= k < |r| && k % 2 == 1 ==> FirstAt(r, k, terms)
  }

  /** Piece `k` is the first term, in list order, that the pieces from `k` on start with. */
  predicate FirstAt(r: seq<string>, k: nat, terms: seq<string>)
    requires k < |r|
  {
    FirstMatch(Join(r[k..]), terms) == Some(r[k])
  }

  /** Whether piece `k` of `r` is unmatched depends only on the pieces from `k` on. */
  lemma ShiftUnmatchedAt(r: seq<string>, k: nat, q: seq<string>, m: nat, terms: seq<string>)
    requires k < |r| && m < |q| && r[k..] == q[m..] && UnmatchedAt(q, m, terms)
    ensures UnmatchedAt(r, k, terms)
  {
    assert r[k] == r[k..][0] && q[m] == q[m..][0];
    assert r[k + 1..] == r[k..][1..] && q[m + 1..] == q[m..][1..];
  }

  /** Whether piece `k` of `r` is a first match depends only on the pieces from `k` on. */
  lemma ShiftFirstAt(r: seq<string>, k: nat, q: seq<string>, m: nat, terms: seq<string>)
    requires k < |r| && m < |q| && r[k..] == q[m..] && FirstAt(q, m, terms)
    ensures FirstAt(r, k, terms)
  {
    assert r[k] == r[k..][0] && q[m] == q[m..][0];
  }

  /** A text piece unmatched up to the term and pieces after it keeps the text pieces of those pieces unmatched. */
  lemma TextsUnmatchedCons(text: string, t: string, rest: seq<string>, terms: seq<string>)
    requires Unmatched(text, t + Join(rest), terms)
    requires TextsUnmatched(rest, terms)
    ensures TextsUnmatched([text, t] + rest, terms)
  {
    var r := [text, t] + rest;
    assert r[1..] == [t] + rest && ([t] + rest)[1..] == rest;
    assert Join(r[1..]) == t + Join(rest);
    forall k | 0 <= k < |r| && k % 2 == 0 ensures UnmatchedAt(r, k, terms) {
      if k >= 2 {
        assert r[k..] == rest[k - 2..];
        ShiftUnmatchedAt(r, k, rest, k - 2, terms);
      }
    }
  }

  /** A term that is the first match in front of pieces whose terms are first matches keeps every term a first match. */
  lemma TermsFirstCons(text: string, t: string, rest: seq<string>, terms: seq<string>)
    requires FirstMatch(t + Join(rest), terms) == Some(t)
    requires TermsFirst(rest, terms)
    ensures TermsFirst([text, t] + rest, terms)
  {
    var r := [text, t] + rest;
    assert r[1..] == [t] + rest && ([t] + rest)[1..] == rest;
    assert Join(r[1..]) == t + Join(rest);
    forall k | 0 <= k < |r| && k % 2 == 1 ensures FirstAt(r, k, terms) {
      if k >= 2 {
        assert r[k..] == rest[k - 2..];
        ShiftFirstAt(r, k, rest, k - 2, terms);
      }
    }
  }

  /**
    The pieces after a match keep the scan order: each text piece is
    unmatched up to the next piece, and each term is the first match where
    it starts.
  */
  lemma MatchStepLeftmost(text: string, s: string, t: string, rest: seq<string>, terms: seq<string>)
    requires Unmatched(text, s, terms)
    requires FirstMatch(s, terms) == Some(t)
    requires Join(rest) == s[|t|..] && |t| <= |s| && s[..|t|] == t
    requires TextsUnmatched(rest, terms) && TermsFirst(rest, terms)
    ensures TextsUnmatched([text, t] + rest, terms) && TermsFirst([text, t] + rest, terms)
  {
    assert s == s[..|t|] + s[|t|..];
    assert s == t + Join(rest);
    TextsUnmatchedCons(text, t, rest, terms);
    TermsFirstCons(text, t, rest, terms);
  }

  /**
    The scan behind the split: `text` is the plain text gathered since the
    last match, `s` what is left of the input. At each position the terms are
    tried in list order; the first that matches ends the current text piece
    and becomes a piece of its own.
  */
  function SplitFrom(text: string, s: string, terms: seq<string>): (r: seq<string>)
    requires forall i :: 0 <= i < |terms| ==> terms[i] != ""
    requires Unmatched(text, s, terms)
    ensures Join(r) == text + s
    ensures |r| % 2 == 1
    ensures forall k :: 0 <= k < |r| && k % 2 == 1 ==> r[k] in terms
    ensures forall k :: 0 <= k < |r| && k % 2 == 0 ==> NoTermIn(r[k], terms)
    ensures TextsUnmatched(r, terms) && TermsFirst(r, terms)
    decreases |s|
  {
    if |s| == 0 then
      assert text + s == text && [text][1..] == [];
      UnmatchedHasNoTerm(text, s, terms);
      [text]
    else
      match FirstMatch(s, terms)
      case Some(t) =>
        var rest := SplitFrom("", s[|t|..], terms);
        MatchStep(text, s, t, rest, terms);
        MatchStepLeftmost(text, s, t, rest, terms);
        [text, t] + rest
      case None =>
        UnmatchedExtend(text, s, terms);
        assert text + [s[0]] + s[1..] == text + s;
        SplitFrom(text + [s[0]], s[1..], terms)
  }

  /**
    `part.split(regex)` for the regular expression `(t1|t2|...)` built from
    the terms: text pieces and matched terms alternate, starting and ending
    with a text piece, which may be empty.
  */
  function Split(part: string, terms: seq<string>): (r: seq<string>)
    requires |terms| > 0
    requires forall i :: 0 <= i < |terms| ==> terms[i] != ""
    ensures Join(r) == part
    ensures |r| % 2 == 1
    ensures forall k :: 0 <= k < |r| && k % 2 == 1 ==> r[k] in terms
    ensures forall k :: 0 <= k < |r| && k % 2 == 0 ==> NoTermIn(r[k], terms)
    ensures TextsUnmatched(r, terms) && TermsFirst(r, terms)
  {
    assert "" + part == part;
    SplitFrom("", part, terms)
  }

  /** Dropping the first text piece and term keeps the scan order of the remaining pieces. */
  lemma LeftmostTail(r: seq<string>, terms: seq<string>)
    requires |r| >= 2 && TextsUnmatched(r, terms) && TermsFirst(r, terms)
    ensures TextsUnmatched(r[2..], terms) && TermsFirst(r[2..], terms)
  {
    var tail := r[2..];
    forall k | 0 <= k < |tail| && k % 2 == 0 ensures UnmatchedAt(tail, k, terms) {
      assert tail[k..] == r[k + 2..];
      ShiftUnmatchedAt(tail, k, r, k + 2, terms);
    }
    forall k | 0 <= k < |tail| && k % 2 == 1 ensures FirstAt(tail, k, terms) {
      assert tail[k..] == r[k + 2..];
      ShiftFirstAt(tail, k, r, k + 2, terms);
    }
  }

  /** A term piece after the first piece makes the joined pieces longer than the first piece. */
  lemma JoinLongerThanHead(terms: seq<string>, r: seq<string>)
    requires forall i :: 0 <= i < |terms| ==> terms[i] != ""
    requires |r| > 0
    requires |r| > 1 ==> FirstMatch(Join(r[1..]), terms) == Some(r[1])
    ensures |r| > 1 ==> |Join(r)| > |r[0]|
  {
    if |r| > 1 {
      var j :| 0 <= j < |terms| && terms[j] == r[1] && IsPrefix(terms[j], Join(r[1..]));
      assert |Join(r[1..])| >= |terms[j]| > 0;
    }
  }

  /** Pieces led by exactly the gathered text, with no input left, are that text alone. */
  lemma UniqueAtEnd(text: string, terms: seq<string>, r: seq<string>)
    requires forall i :: 0 <= i < |terms| ==> terms[i] != ""
    requires Join(r) == text && |r| % 2 == 1 && r[0] == text
    requires |r| > 1 ==> FirstMatch(Join(r[1..]), terms) == Some(r[1])
    ensures r == [text]
  {
    JoinLongerThanHead(terms, r);
  }

  /** The scan at a match. */
  lemma SplitFromAtMatch(text: string, s: string, terms: seq<string>, t: string)
    requires forall i :: 0 <= i < |terms| ==> terms[i] != ""
    requires Unmatched(text, s, terms) && |s| > 0 && FirstMatch(s, terms) == Some(t)
    ensures |t| <= |s| && Unmatched("", s[|t|..], terms)
    ensures SplitFrom(text, s, terms) == [text, t] + SplitFrom("", s[|t|..], terms)
  {
  }

  /** The scan where no term matches. */
  lemma SplitFromAtPlain(text: string, s: string, terms: seq<string>)
    requires forall i :: 0 <= i < |terms| ==> terms[i] != ""
    requires Unmatched(text, s, terms) && |s| > 0 && FirstMatch(s, terms).None?
    ensures Unmatched(text + [s[0]], s[1..], terms)
    ensures SplitFrom(text, s, terms) == SplitFrom(text + [s[0]], s[1..], terms)
  {
    UnmatchedExtend(text, s, terms);
  }

  /**
    Pieces led by exactly the gathered text, with input left: the next piece
    is the first match at the start of the input, and the pieces after it
    meet the same conditions for the rest of the input.
  */
  lemma UniqueAtMatch(text: string, s: string, terms: seq<string>, r: seq<string>)
    requires Join(r) == text + s && |r| % 2 == 1 && r[0] == text && |s| > 0
    requires |r| > 1 ==> FirstMatch(Join(r[1..]), terms) == Some(r[1])
    ensures |r| >= 3
    ensures FirstMatch(s, terms) == Some(r[1]) && |r[1]| <= |s|
    ensures Join(r[2..]) == "" + s[|r[1]|..] && |r[2..]| % 2 == 1
    ensures Unmatched("", s[|r[1]|..], terms) && r[2..][0][..0] == ""
  {
    assert Join(r) == r[0] + Join(r[1..]);
    assert (text + s)[|text|..] == s;
    assert (r[0] + Join(r[1..]))[|text|..] == Join(r[1..]);
    assert Join(r[1..]) == s;
    assert FirstMatch(Join(r[1..]), terms) == Some(r[1]);
    assert Join(r[1..]) == r[1] + Join(r[2..]);
    assert (r[1] + Join(r[2..]))[|r[1]|..] == Join(r[2..]);
  }

  /** Where a text piece is unmatched, no term starts at its position `j`. */
  lemma NoMatchInside(text: string, rest: string, terms: seq<string>, j: nat)
    requires Unmatched(text, rest, terms) && j < |text|
    ensures FirstMatch(text[j..] + rest, terms).None?
  {
  }

  /**
    Pieces whose first text piece runs past the gathered text: no term
    matches at the start of the input, and the first piece extends the
    gathered text by the input's first character.
  */
  lemma UniqueAtPlain(text: string, s: string, terms: seq<string>, r: seq<string>)
    requires Join(r) == text + s && |r| > 0
    requires |text| < |r[0]| && r[0][..|text|] == text
    requires Unmatched(r[0], Join(r[1..]), terms)
    ensures |s| > 0 && FirstMatch(s, terms).None?
    ensures r[0][..|text| + 1] == text + [s[0]]
    ensures Join(r) == (text + [s[0]]) + s[1..]
  {
    assert Join(r) == r[0] + Join(r[1..]);
    assert r[0] == text + r[0][|text|..];
    assert (text + s)[|text|..] == s;
    assert (r[0] + Join(r[1..]))[|text|..] == r[0][|text|..] + Join(r[1..]);
    assert r[0][|text|..] + Join(r[1..]) == s;
    NoMatchInside(r[0], Join(r[1..]), terms, |text|);
  }

  /**
    The scan is the only split with its properties: any pieces that join to
    the input, alternate text and terms, and keep the scan order are the
    pieces the scan produces.
  */
  lemma {:induction false} SplitFromUnique(text: string, s: string, terms: seq<string>, r: seq<string>)
    requires forall i :: 0 <= i < |terms| ==> terms[i] != ""
    requires Unmatched(text, s, terms)
    requires Join(r) == text + s && |r| % 2 == 1
    requires |text| <= |r[0]| && r[0][..|text|] == text
    requires TextsUnmatched(r, terms) && TermsFirst(r, terms)
    ensures r == SplitFrom(text, s, terms)
    decreases |s|, 1
  {
    if |r[0]| == |text| {
      if |s| == 0 {
        assert r[0] == r[0][..|text|] && text + s == text;
        assert |r| > 1 ==> FirstAt(r, 1, terms);
        UniqueAtEnd(text, terms, r);
      } else {
        UniqueAtMatchCase(text, s, terms, r);
      }
    } else {
      UniqueAtPlainCase(text, s, terms, r);
    }
  }

  /** `SplitFromUnique` where the first piece is exactly the gathered text and input is left. */
  lemma {:induction false} UniqueAtMatchCase(text: string, s: string, terms: seq<string>, r: seq<string>)
    requires forall i :: 0 <= i < |terms| ==> terms[i] != ""
    requires Unmatched(text, s, terms)
    requires Join(r) == text + s && |r| % 2 == 1
    requires |text| <= |r[0]| && r[0][..|text|] == text
    requires TextsUnmatched(r, terms) && TermsFirst(r, terms)
    requires |r[0]| == |text| && |s| > 0
    ensures r == SplitFrom(text, s, terms)
    decreases |s|, 0
  {
    assert r[0] == r[0][..|text|];
    assert |r| > 1 ==> FirstAt(r, 1, terms);
    UniqueAtMatch(text, s, terms, r);
    LeftmostTail(r, terms);
    var t := r[1];
    SplitFromAtMatch(text, s, terms, t);
    SplitFromUnique("", s[|t|..], terms, r[2..]);
    assert r == [text, t] + r[2..];
  }

  /** `SplitFromUnique` where the first piece runs past the gathered text. */
  lemma {:induction false} UniqueAtPlainCase(text: string, s: string, terms: seq<string>, r: seq<string>)
    requires forall i :: 0 <= i < |terms| ==> terms[i] != ""
    requires Unmatched(text, s, terms)
    requires Join(r) == text + s && |r| % 2 == 1
    requires |text| <= |r[0]| && r[0][..|text|] == text
    requires TextsUnmatched(r, terms) && TermsFirst(r, terms)
    requires |r[0]| > |text|
    ensures r == SplitFrom(text, s, terms)
    decreases |s|, 0
  {
    assert UnmatchedAt(r, 0, terms);
    UniqueAtPlain(text, s, terms, r);
    SplitFromAtPlain(text, s, terms);
    SplitFromUnique(text + [s[0]], s[1..], terms, r);
  }

  /** `Split` is the only split of `part` with the properties its contract states. */
  lemma SplitUnique(part: string, terms: seq<string>, r: seq<string>)
    requires |terms| > 0
    requires forall i :: 0 <= i < |terms| ==> terms[i] != ""
    requires Join(r) == part && |r| % 2 == 1
    requires TextsUnmatched(r, terms) && TermsFirst(r, terms)
    ensures r == Split(part, terms)
  {
    assert r[0][..0] == "" && "" + part == part;
    SplitFromUnique("", part, terms, r);
  }

  /** No term of "bc", "c" starts at the "a" of "abc". */
  lemma OverlapHeadUnmatched(terms: seq<string>, text: string, rest: string)
    requires terms == ["bc", "c"] && text == "a" && rest == "bc"
    ensures Unmatched(text, rest, terms)
  {
    assert text[0..] + rest == "abc";
    assert "abc"[..2] == "ab" && "abc"[..1] == "a";
  }

  /** At "bc" the first term matches. */
  lemma OverlapFirstMatch(terms: seq<string>, s: string)
    requires terms == ["bc", "c"] && s == "bc"
    ensures FirstMatch(s, terms) == Some("bc")
  {
    assert IsPrefix(terms[0], s);
  }

  /** Joining three pieces and their suffixes. */
  lemma ThreeJoin(a: string, t: string, c: string)
    ensures Join([a, t, c][2..]) == c
    ensures Join([a, t, c][1..]) == t + c
    ensures Join([a, t, c]) == a + t + c
  {
    var r := [a, t, c];
    assert r[1..] == [t, c] && r[2..] == [c] && r[1..][1..] == [c] && r[2..][1..] == [];
    assert Join(r[2..]) == c + "" == c;
    assert a + (t + c) == a + t + c;
  }

  /** The text pieces of three pieces, text, term, text, are unmatched. */
  lemma ThreeTexts(a: string, t: string, c: string, terms: seq<string>)
    requires Unmatched(a, t + c, terms) && Unmatched(c, "", terms)
    ensures TextsUnmatched([a, t, c], terms)
  {
    ThreeJoin(a, t, c);
    var r := [a, t, c];
    forall k | 0 <= k < |r| && k % 2 == 0 ensures UnmatchedAt(r, k, terms) {
      assert k == 0 || k == 2;
    }
  }

  /** The term of three pieces, text, term, text, is the first match where it starts. */
  lemma ThreeTerms(r: seq<string>, terms: seq<string>)
    requires |r| == 3 && FirstMatch(Join(r[1..]), terms) == Some(r[1])
    ensures TermsFirst(r, terms)
  {
    assert FirstAt(r, 1, terms);
  }

  /** Overlapping terms: in "abc" the scan reaches "bc" before "c", so "bc" is cut and "c" is not. */
  lemma OverlappingTerms(part: string, terms: seq<string>)
    requires part == "abc" && terms == ["bc", "c"]
    ensures Split(part, terms) == ["a", "bc", ""]
  {
    assert "bc" + "" == "bc" && "a" + "bc" + "" == part;
    OverlapHeadUnmatched(terms, "a", "bc");
    OverlapFirstMatch(terms, "bc");
    ThreeJoin("a", "bc", "");
    ThreeTexts("a", "bc", "", terms);
    ThreeTerms(["a", "bc", ""], terms);
    SplitUnique(part, terms, ["a", "bc", ""]);
  }

  /** `glossary.find(g => g.term === p)`, reduced to the definition found. */
  function Lookup(glossary: seq<Entry>, p: string): (r: Option<string>)
    ensures r.None? <==> forall i :: 0 <= i < |glossary| ==> glossary[i].term != p
    ensures r.Some? ==> exists j :: (&& 0 <= j < |glossary| && glossary[j] == Entry(p, r.value)
                                     && forall i :: 0 <= i < j ==> glossary[i].term != p)
  {
    if |glossary| == 0 then None
    else if glossary[0].term == p then Some(glossary[0].definition)
    else
      var r := Lookup(glossary[1..], p);
      assert forall i :: 1 <= i < |glossary| ==> glossary[i] == glossary[1..][i - 1];
      if r.Some? then
        var j :| 0 <= j < |glossary[1..]| && glossary[1..][j] == Entry(p, r.value)
          && forall i :: 0 <= i < j ==> glossary[1..][i].term != p;
        assert glossary[j + 1] == Entry(p, r.value);
        r
      else r
  }

  /** The text a piece shows: plain text as it is, a glossary word by its `word`. */
  function Shown(p: Piece): string {
    match p
    case Plain(t) => t
    case Glossed(w, _) => w
  }

  function Classify(glossary: seq<Entry>, p: string): (r: Piece)
    ensures Shown(r) == p
    ensures r.Glossed? <==> Lookup(glossary, p).Some?
    ensures r.Glossed? ==> Lookup(glossary, p) == Some(r.def)
  {
    match Lookup(glossary, p)
    case Some(d) => Glossed(p, d)
    case None => Plain(p)
  }

  function ShownText(pieces: seq<Piece>): string {
    if |pieces| == 0 then "" else Shown(pieces[0]) + ShownText(pieces[1..])
  }

  /** Each string classified in place. */
  function ClassifyAll(glossary: seq<Entry>, parts: seq<string>): (r: seq<Piece>)
    ensures |r| == |parts|
    ensures forall k :: 0 <= k < |parts| ==> r[k] == Classify(glossary, parts[k])
  {
    seq(|parts|, k requires 0 <= k < |parts| => Classify(glossary, parts[k]))
  }

  /** Showing the classified pieces gives back the joined strings. */
  lemma {:induction false} ShownTextOfClassified(glossary: seq<Entry>, parts: seq<string>)
    ensures ShownText(ClassifyAll(glossary, parts)) == Join(parts)
    decreases |parts|
  {
    if |parts| > 0 {
      ShownTextOfClassified(glossary, parts[1..]);
      assert ClassifyAll(glossary, parts)[1..] == ClassifyAll(glossary, parts[1..]);
    }
  }

  /** The same holds for every suffix of the pieces. */
  lemma ShownSuffixes(glossary: seq<Entry>, parts: seq<string>)
    ensures forall k :: 0 <= k <= |parts| ==> ShownText(ClassifyAll(glossary, parts)[k..]) == Join(parts[k..])
  {
    forall k | 0 <= k <= |parts| ensures ShownText(ClassifyAll(glossary, parts)[k..]) == Join(parts[k..]) {
      ShownTextOfClassified(glossary, parts[k..]);
      assert ClassifyAll(glossary, parts)[k..] == ClassifyAll(glossary, parts[k..]);
    }
  }

  /** Classifying the pieces of a leftmost-first split keeps the scan order, stated over the shown text. */
  lemma ClassifiedLeftmost(glossary: seq<Entry>, parts: seq<string>)
    requires TextsUnmatched(parts, Terms(glossary)) && TermsFirst(parts, Terms(glossary))
    requires forall k :: 0 <= k < |parts| ==> (Lookup(glossary, parts[k]).Some? <==> k % 2 == 1)
    ensures var r := ClassifyAll(glossary, parts);
      && (forall k :: 0 <= k < |r| && r[k].Plain? ==> Unmatched(r[k].text, ShownText(r[k + 1..]), Terms(glossary)))
      && (forall k :: 0 <= k < |r| && r[k].Glossed? ==> FirstMatch(ShownText(r[k..]), Terms(glossary)) == Some(r[k].word))
  {
    ShownSuffixes(glossary, parts);
    var r := ClassifyAll(glossary, parts);
    forall k | 0 <= k < |r| && r[k].Plain? ensures Unmatched(r[k].text, ShownText(r[k + 1..]), Terms(glossary)) {
      assert UnmatchedAt(parts, k, Terms(glossary));
    }
    forall k | 0 <= k < |r| && r[k].Glossed? ensures FirstMatch(ShownText(r[k..]), Terms(glossary)) == Some(r[k].word) {
      assert FirstAt(parts, k, Terms(glossary));
    }
  }

  /** A piece of the split is glossed exactly when it sits in an odd position. */
  lemma GlossedAtOddPositions(glossary: seq<Entry>, parts: seq<string>)
    requires ValidGlossary(glossary)
    requires forall k :: 0 <= k < |parts| && k % 2 == 1 ==> parts[k] in Terms(glossary)
    requires forall k :: 0 <= k < |parts| && k % 2 == 0 ==> NoTermIn(parts[k], Terms(glossary))
    ensures forall k :: 0 <= k < |parts| ==> (Lookup(glossary, parts[k]).Some? <==> k % 2 == 1)
  {
    var terms := Terms(glossary);
    forall k | 0 <= k < |parts|
      ensures Lookup(glossary, parts[k]).Some? <==> k % 2 == 1
    {
      if k % 2 == 1 {
        var i :| 0 <= i < |terms| && terms[i] == parts[k];
        assert glossary[i].term == parts[k];
      } else {
        forall i | 0 <= i < |glossary| ensures glossary[i].term != parts[k] {
          assert terms[i] == glossary[i].term;
          assert !IsPrefix(terms[i], parts[k][0..]);
          assert parts[k][0..] == parts[k];
        }
      }
    }
  }

  /**
    `getHighlightedVersePart(part)`. The pieces, shown in order, reproduce
    the verse text exactly. The glossary words are exactly the pieces in odd
    positions, each carrying the definition of the first entry with its term,
    and no plain piece contains a term. Words are cut leftmost first: no term
    matches inside a plain piece against the text that follows it, and each
    word is the first term, in glossary order, that the text starting at it
    begins with.
  */
  function HighlightedVersePart(glossary: seq<Entry>, part: string): (r: seq<Piece>)
    requires ValidGlossary(glossary)
    ensures ShownText(r) == part
    ensures |r| % 2 == 1
    ensures forall k :: 0 <= k < |r| ==> (r[k].Glossed? <==> k % 2 == 1)
    ensures forall k :: 0 <= k < |r| && r[k].Glossed? ==> Lookup(glossary, r[k].word) == Some(r[k].def)
    ensures forall k :: 0 <= k < |r| && r[k].Plain? ==> NoTermIn(r[k].text, Terms(glossary))
    ensures forall k :: 0 <= k < |r| && r[k].Plain? ==> Unmatched(r[k].text, ShownText(r[k + 1..]), Terms(glossary))
    ensures forall k :: 0 <= k < |r| && r[k].Glossed? ==> FirstMatch(ShownText(r[k..]), Terms(glossary)) == Some(r[k].word)
  {
    var parts := Split(part, Terms(glossary));
    ShownTextOfClassified(glossary, parts);
    GlossedAtOddPositions(glossary, parts);
    ClassifiedLeftmost(glossary, parts);
    ClassifyAll(glossary, parts)
  }
}

=== FILE: options.dfy ===
/** The optional value used wherever the component holds a nullable signal. */
module Options {

  /** `None` stands for JavaScript `null`. */
  datatype Option<+T> = None | Some(value: T)
}

=== FILE: quiz.dfy ===
/**
  The quiz state machine of the application component: the signals
  `currentQuestionIndex`, `selectedAnswer`, `score`, `quizFinished` and
  `showConfetti` as one immutable record, with the synchronous part of each
  operation as a pure function. A `setTimeout` callback is not run here: an
  operation returns the callback it schedules, and the modules QuizTimers and
  QuizGenerations decide when it fires.
*/
module Quiz {
  import opened Options

  /** One entry of the quiz bank. */
  datatype Question = Question(prompt: string, options: seq<string>, answer: string)

  /** The shape of the static bank: non-empty, and each answer is one of its question's non-empty options. */
  predicate WellFormedBank(bank: seq<Question>) {
    && |bank| > 0
    && (forall i :: 0 <= i < |bank| ==> bank[i].answer in bank[i].options)
    && (forall i :: 0 <= i < |bank| ==> bank[i].answer != "")
    && (forall i, j :: 0 <= i < |bank| && 0 <= j < |bank[i].options| ==> bank[i].options[j] != "")
  }

  datatype State = State(index: nat, selected: Option<string>, score: nat, finished: bool, confetti: bool)

  /** The signals' initial values. */
  const Initial: State := State(0, None, 0, false, false)

  /** The three `setTimeout` callbacks the quiz schedules. */
  datatype Callback =
    | AfterCorrect    // scheduled by selectAnswer on a correct answer
    | AfterIncorrect  // scheduled by selectAnswer on a wrong answer
    | DeferredReset   // scheduled by closeQuiz

  /** What a user action does at once, and the callback it leaves pending. */
  datatype Step = Step(state: State, scheduled: Option<Callback>)

  /** JavaScript truthiness of the `selectedAnswer` signal: null and "" are falsy. */
  predicate Truthy(selected: Option<string>) {
    selected.Some? && selected.value != ""
  }

  /** `selectAnswer(option)` up to the point where it schedules its continuation. */
  function SelectAnswer(bank: seq<Question>, s: State, option: string): (r: Step)
    requires s.index < |bank|
    ensures Truthy(s.selected) ==> r.state == s && r.scheduled.None?
    ensures !Truthy(s.selected) ==> r.state.selected == Some(option)
    ensures !Truthy(s.selected) ==> (r.state.score == s.score + 1 <==> option == bank[s.index].answer)
    ensures r.state.score == s.score || r.state.score == s.score + 1
    ensures r.state.index == s.index && r.state.finished == s.finished && r.state.confetti == s.confetti
    ensures !Truthy(s.selected) && option == bank[s.index].answer ==> r.scheduled == Some(AfterCorrect)
    ensures !Truthy(s.selected) && option != bank[s.index].answer ==> r.scheduled == Some(AfterIncorrect)
  {
    if Truthy(s.selected) then Step(s, None)
    else if option == bank[s.index].answer then
      Step(s.(selected := Some(option), score := s.score + 1), Some(AfterCorrect))
    else
      Step(s.(selected := Some(option)), Some(AfterIncorrect))
  }

  /** `resetQuiz()`: the quiz starts over; the confetti flag is left as it is. */
  function ResetQuiz(s: State): (r: State)
    ensures r.index == 0 && r.selected.None? && !r.finished && r.score == 0
    ensures r.confetti == s.confetti
  {
    s.(index := 0, selected := None, finished := false, score := 0)
  }

  /** `closeQuiz()`: hides the confetti and schedules a reset. */
  function CloseQuiz(s: State): (r: Step)
    ensures r.state == s.(confetti := false)
    ensures r.scheduled == Some(DeferredReset)
  {
    Step(s.(confetti := false), Some(DeferredReset))
  }

  /** The body of a callback when it fires. No callback checks which session scheduled it. */
  function RunCallback(bank: seq<Question>, s: State, c: Callback): (r: State)
    ensures c == AfterCorrect && s.index + 1 < |bank| ==>
      r == s.(index := s.index + 1, selected := None)
    ensures c == AfterCorrect && s.index + 1 >= |bank| ==>
      r == s.(finished := true, confetti := true)
    ensures c == AfterIncorrect ==> r == s.(selected := None)
    ensures c == DeferredReset ==> r == ResetQuiz(s)
    ensures s.index < |bank| ==> r.index < |bank|
    ensures c != DeferredReset ==> r.score == s.score
  {
    match c
    case AfterCorrect =>
      if s.index < |bank| - 1 then s.(index := s.index + 1, selected := None)
      else s.(finished := true, confetti := true)
    case AfterIncorrect => s.(selected := None)
    case DeferredReset => ResetQuiz(s)
  }

  /** The four looks `getOptionClass` gives an answer button. */
  datatype Look = Neutral | Dimmed | ShownCorrect | ShownIncorrect

  /** `getOptionClass(option)`, with the CSS class strings replaced by the look they encode. */
  function OptionLook(bank: seq<Question>, s: State, option: string): (r: Look)
    requires s.selected == Some(option) ==> s.index < |bank|
    ensures r == Neutral <==> s.selected.None?
    ensures r == Dimmed <==> s.selected.Some? && option != s.selected.value
    ensures r == ShownCorrect <==> s.selected == Some(option) && option == bank[s.index].answer
    ensures r == ShownIncorrect <==> s.selected == Some(option) && option != bank[s.index].answer
  {
    match s.selected
    case None => Neutral
    case Some(sel) =>
      if option != sel then Dimmed
      else if option == bank[s.index].answer then ShownCorrect
      else ShownIncorrect
  }

  /** Once an answer is selected, at most one option of the question is not dimmed: the selected one. */
  lemma AtMostOneHighlighted(bank: seq<Question>, s: State, options: seq<string>, i: nat, j: nat)
    requires s.index < |bank| && s.selected.Some?
    requires i < |options| && j < |options|
    requires OptionLook(bank, s, options[i]) != Dimmed && OptionLook(bank, s, options[j]) != Dimmed
    ensures options[i] == options[j] == s.selected.value
  {
  }

  /**
    How the quiz state agrees with the answer callbacks still to come:
    `advancing` pending correct-answer continuations and `retrying` pending
    wrong-answer ones. The score counts the questions already passed plus
    the current one when its answer has been given.
  */
  predicate Coherent(bank: seq<Question>, s: State, advancing: nat, retrying: nat) {
    && WellFormedBank(bank)
    && s.index < |bank|
    && (s.finished ==> s.index == |bank| - 1)
    && s.score == s.index + (if s.selected == Some(bank[s.index].answer) then 1 else 0)
    && (|| (advancing == 0 && retrying == 0 && s.selected.None? && !s.finished)
        || (advancing == 0 && retrying == 0 && s.finished && s.selected == Some(bank[s.index].answer))
        || (advancing == 1 && retrying == 0 && !s.finished && s.selected == Some(bank[s.index].answer))
        || (advancing == 0 && retrying == 1 && !s.finished && Truthy(s.selected)
            && s.selected.value != bank[s.index].answer))
  }

  /** The score never exceeds the number of questions. */
  lemma CoherentScoreBounded(bank: seq<Question>, s: State, advancing: nat, retrying: nat)
    requires Coherent(bank, s, advancing, retrying)
    ensures s.score <= |bank|
    ensures s.finished ==> s.score == |bank|
  {
  }

  /** `xs` with the element at `k` taken out. */
  function RemoveAt<T>(xs: seq<T>, k: nat): (r: seq<T>)
    requires k < |xs|
    ensures |r| == |xs| - 1
    ensures multiset(r) + multiset{xs[k]} == multiset(xs)
  {
    assert xs == xs[..k] + [xs[k]] + xs[k + 1..];
    xs[..k] + xs[k + 1..]
  }
}

=== FILE: quiz_generations.dfy ===
/**
  The quiz with the staleness guard its deferred callbacks lack: every
  callback is tagged with the generation of the session that scheduled it, a
  reset starts a new generation, and an answer callback from an older
  generation is dropped when it fires. The quiz invariant then holds whatever
  order the pending callbacks fire in, resets included.
*/
module QuizGenerations {
  import opened Options
  import opened Quiz

  datatype Timer = Timer(generation: nat, callback: Callback)

  datatype Session = Session(state: State, generation: nat, pending: seq<Timer>)

  const Start: Session := Session(Initial, 0, [])

  function Schedule(generation: nat, c: Option<Callback>): seq<Timer> {
    match c
    case None => []
    case Some(cb) => [Timer(generation, cb)]
  }

  /** The user picks `option`; its continuation carries the current generation. */
  function Select(bank: seq<Question>, q: Session, option: string): (r: Session)
    requires q.state.index < |bank|
    ensures r.state == SelectAnswer(bank, q.state, option).state && r.generation == q.generation
    ensures multiset(r.pending) == multiset(q.pending) + multiset(Schedule(q.generation, SelectAnswer(bank, q.state, option).scheduled))
  {
    var step := SelectAnswer(bank, q.state, option);
    Session(step.state, q.generation, q.pending + Schedule(q.generation, step.scheduled))
  }

  /** The user closes the quiz window. */
  function Close(q: Session): (r: Session)
    ensures r.state == q.state.(confetti := false) && r.generation == q.generation
    ensures multiset(r.pending) == multiset(q.pending) + multiset{Timer(q.generation, DeferredReset)}
  {
    Session(q.state.(confetti := false), q.generation, q.pending + [Timer(q.generation, DeferredReset)])
  }

  /** True when firing `t` would act on a session later than the one that scheduled it. */
  predicate Stale(q: Session, t: Timer) {
    t.callback != DeferredReset && t.generation != q.generation
  }

  /** The pending timer at `k` fires: a reset opens a new generation, a stale answer callback does nothing. */
  function Fire(bank: seq<Question>, q: Session, k: nat): (r: Session)
    requires k < |q.pending|
    ensures multiset(r.pending) + multiset{q.pending[k]} == multiset(q.pending)
    ensures Stale(q, q.pending[k]) ==> r.state == q.state && r.generation == q.generation
    ensures q.pending[k].callback == DeferredReset ==>
      r.state == ResetQuiz(q.state) && r.generation == q.generation + 1
    ensures !Stale(q, q.pending[k]) && q.pending[k].callback != DeferredReset ==>
      r.state == RunCallback(bank, q.state, q.pending[k].callback) && r.generation == q.generation
  {
    var t := q.pending[k];
    var rest := RemoveAt(q.pending, k);
    if t.callback == DeferredReset then Session(ResetQuiz(q.state), q.generation + 1, rest)
    else if t.generation != q.generation then Session(q.state, q.generation, rest)
    else Session(RunCallback(bank, q.state, t.callback), q.generation, rest)
  }

  /** No pending timer comes from a generation later than the current one. */
  predicate NoFutureTimers(q: Session) {
    forall i :: 0 <= i < |q.pending| ==> q.pending[i].generation <= q.generation
  }

  /** The quiz invariant: the state agrees with the answer callbacks of the current generation. */
  predicate Consistent(bank: seq<Question>, q: Session) {
    && NoFutureTimers(q)
    && Coherent(bank, q.state,
                multiset(q.pending)[Timer(q.generation, AfterCorrect)],
                multiset(q.pending)[Timer(q.generation, AfterIncorrect)])
  }

  lemma StartConsistent(bank: seq<Question>)
    requires WellFormedBank(bank)
    ensures Consistent(bank, Start)
  {
  }

  /** Selecting a non-empty option (every option of the bank is one) keeps the invariant. */
  lemma SelectConsistent(bank: seq<Question>, q: Session, option: string)
    requires Consistent(bank, q) && option != ""
    ensures Consistent(bank, Select(bank, q, option))
  {
  }

  /** Closing keeps the invariant: the reset it schedules is not an answer callback. */
  lemma CloseConsistent(bank: seq<Question>, q: Session)
    requires Consistent(bank, q)
    ensures Consistent(bank, Close(q))
  {
  }

  /** Firing any pending timer, in any order, keeps the invariant. */
  lemma FireConsistent(bank: seq<Question>, q: Session, k: nat)
    requires Consistent(bank, q) && k < |q.pending|
    ensures Consistent(bank, Fire(bank, q, k))
  {
  }

  /** The score stays within the bank under every interleaving of user actions and timers. */
  lemma ScoreBounded(bank: seq<Question>, q: Session)
    requires Consistent(bank, q)
    ensures q.state.score <= |bank|
  {
  }

  /**
    The interleaving of QuizTimers.StaleAdvanceAfterClose, guarded: the
    correct-answer continuation fires after the reset, is stale, and leaves
    the fresh quiz at its first question.
  */
  lemma StaleAdvanceDropped(bank: seq<Question>)
    requires WellFormedBank(bank) && |bank| >= 2
    ensures
      var answered := Select(bank, Start, bank[0].answer);
      var closed := Close(answered);
      var reset := Fire(bank, closed, 1);
      var late := Fire(bank, reset, 0);
      && closed.pending == [Timer(0, AfterCorrect), Timer(0, DeferredReset)]
      && Stale(reset, reset.pending[0])
      && late.state == ResetQuiz(answered.state)
      && late.state.index == 0 && late.state.score == 0 && late.pending == []
  {
    var answered := Select(bank, Start, bank[0].answer);
    assert answered.state == Initial.(selected := Some(bank[0].answer), score := 1);
    assert answered.pending == [Timer(0, AfterCorrect)];
    var closed := Close(answered);
    var reset := Fire(bank, closed, 1);
    assert reset.generation == 1 && reset.pending == [Timer(0, AfterCorrect)];
  }

  /**
    The guard drops only answer callbacks that fire after the reset: a
    continuation that fires between the close and its reset is still
    current, runs, and its confetti outlives the reset.
  */
  lemma ConfettiSurvivesReset(bank: seq<Question>)
    requires WellFormedBank(bank) && |bank| == 1
    ensures
      var closed := Close(Select(bank, Start, bank[0].answer));
      var finished := Fire(bank, closed, 0);
      var reset := Fire(bank, finished, 0);
      && closed.pending == [Timer(0, AfterCorrect), Timer(0, DeferredReset)]
      && !Stale(closed, closed.pending[0])
      && finished.state.finished && finished.state.confetti
      && reset.state == State(0, None, 0, false, true) && reset.pending == []
  {
  }
}

=== FILE: quiz_timers.dfy ===
/**
  The quiz as the component runs it: the state together with the callbacks
  its `setTimeout` calls have left pending. Which pending callback fires next
  depends on wall-clock delays, so `Fire` may fire any of them. No callback
  checks whether the quiz was reset after it was scheduled.
*/
module QuizTimers {
  import opened Options
  import opened Quiz

  datatype Session = Session(state: State, pending: seq<Callback>)

  const Start: Session := Session(Initial, [])

  function Schedule(c: Option<Callback>): seq<Callback> {
    match c
    case None => []
    case Some(cb) => [cb]
  }

  /** The user picks `option`. */
  function Select(bank: seq<Question>, q: Session, option: string): (r: Session)
    requires q.state.index < |bank|
    ensures r.state == SelectAnswer(bank, q.state, option).state
    ensures multiset(r.pending) == multiset(q.pending) + multiset(Schedule(SelectAnswer(bank, q.state, option).scheduled))
  {
    var step := SelectAnswer(bank, q.state, option);
    Session(step.state, q.pending + Schedule(step.scheduled))
  }

  /** The user closes the quiz window. */
  function Close(q: Session): (r: Session)
    ensures r.state == q.state.(confetti := false)
    ensures multiset(r.pending) == multiset(q.pending) + multiset{DeferredReset}
  {
    Session(q.state.(confetti := false), q.pending + [DeferredReset])
  }

  /** The pending callback at `k` fires. */
  function Fire(bank: seq<Question>, q: Session, k: nat): (r: Session)
    requires k < |q.pending|
    ensures r.state == RunCallback(bank, q.state, q.pending[k])
    ensures multiset(r.pending) + multiset{q.pending[k]} == multiset(q.pending)
  {
    Session(RunCallback(bank, q.state, q.pending[k]), RemoveAt(q.pending, k))
  }

  /** The quiz invariant, for sessions with no deferred reset pending. */
  predicate Consistent(bank: seq<Question>, q: Session) {
    && DeferredReset !in multiset(q.pending)
    && Coherent(bank, q.state, multiset(q.pending)[AfterCorrect], multiset(q.pending)[AfterIncorrect])
  }

  lemma StartConsistent(bank: seq<Question>)
    requires WellFormedBank(bank)
    ensures Consistent(bank, Start)
  {
  }

  /** Selecting a non-empty option (every option of the bank is one) keeps the invariant. */
  lemma SelectConsistent(bank: seq<Question>, q: Session, option: string)
    requires Consistent(bank, q) && option != ""
    ensures Consistent(bank, Select(bank, q, option))
  {
  }

  /** Firing any pending callback keeps the invariant, while no reset is pending. */
  lemma FireConsistent(bank: seq<Question>, q: Session, k: nat)
    requires Consistent(bank, q) && k < |q.pending|
    ensures Consistent(bank, Fire(bank, q, k))
  {
  }

  /**
    A wrong answer can be retried without limit: once its continuation has
    fired, the quiz is back where it was, with the same question and score.
  */
  lemma WrongAnswerRetry(bank: seq<Question>, q: Session, wrong: string)
    requires Consistent(bank, q) && q.pending == [] && q.state.selected.None?
    requires wrong != bank[q.state.index].answer
    ensures Select(bank, q, wrong).pending == [AfterIncorrect]
    ensures Fire(bank, Select(bank, q, wrong), 0) == q
  {
  }

  /**
    The quiz after answering each of the first `k` questions correctly and
    letting each continuation fire. The score is k; the quiz is finished
    exactly after the last question's answer, and never before.
  */
  function PerfectRun(bank: seq<Question>, k: nat): (q: Session)
    requires WellFormedBank(bank) && k <= |bank|
    ensures q.pending == [] && q.state.score == k
    ensures q.state.finished <==> k == |bank|
    ensures q.state.index == if k < |bank| then k else |bank| - 1
    ensures k < |bank| ==> q.state.selected.None?
    decreases k
  {
    if k == 0 then Start
    else
      var prev := PerfectRun(bank, k - 1);
      var answered := Select(bank, prev, bank[prev.state.index].answer);
      Fire(bank, answered, 0)
  }

  /**
    Two questions: the first answered wrongly then correctly, the second
    correctly; the quiz ends on the second question with both points.
  */
  lemma TwoQuestionScenario(bank: seq<Question>)
    requires bank == [Question("q1", ["yes", "no"], "yes"), Question("q2", ["left", "right"], "right")]
    ensures
      var q1 := Fire(bank, Select(bank, Start, "no"), 0);
      var q2 := Fire(bank, Select(bank, q1, "yes"), 0);
      var q3 := Fire(bank, Select(bank, q2, "right"), 0);
      q3.state.index == 1 && q3.state.score == 2 && q3.state.finished && q3.pending == []
  {
    assert bank[0].answer == "yes" && bank[1].answer == "right" && |bank| == 2;
    var s1 := Select(bank, Start, "no");
    assert s1.pending == [AfterIncorrect];
    var q1 := Fire(bank, s1, 0);
    assert q1 == Start;
    var s2 := Select(bank, q1, "yes");
    assert s2.pending == [AfterCorrect];
    var q2 := Fire(bank, s2, 0);
    assert q2 == Session(State(1, None, 1, false, false), []);
    var s3 := Select(bank, q2, "right");
    assert s3.pending == [AfterCorrect];
  }

  /**
    The interleaving no callback guards against: the first question is
    answered correctly and the quiz is closed before the 1500 ms
    continuation runs. The 300 ms reset fires first; the stale continuation
    then moves the fresh quiz on to the second question with a score of 0.
  */
  lemma StaleAdvanceAfterClose(bank: seq<Question>)
    requires WellFormedBank(bank) && |bank| >= 2
    ensures
      var answered := Select(bank, Start, bank[0].answer);
      var closed := Close(answered);
      var reset := Fire(bank, closed, 1);
      var stale := Fire(bank, reset, 0);
      && closed.pending == [AfterCorrect, DeferredReset]
      && reset.state == ResetQuiz(answered.state)
      && stale.pending == []
      && stale.state.index == 1 && stale.state.score == 0 && stale.state.selected.None?
      && !Coherent(bank, stale.state, 0, 0)
  {
    var answered := Select(bank, Start, bank[0].answer);
    assert answered.state == Initial.(selected := Some(bank[0].answer), score := 1);
    assert answered.pending == [AfterCorrect];
    var reset := Fire(bank, Close(answered), 1);
    assert reset.pending == [AfterCorrect] && reset.state.index == 0 && reset.state.score == 0;
  }

  /**
    The other order of the same race, on a one-question quiz: the quiz is
    closed 1.2-1.5 s after the last correct answer, so the continuation fires
    before the reset. It finishes the quiz and raises the confetti, and the
    reset that follows leaves the confetti raised over the fresh quiz.
  */
  lemma ConfettiSurvivesReset(bank: seq<Question>)
    requires WellFormedBank(bank) && |bank| == 1
    ensures
      var closed := Close(Select(bank, Start, bank[0].answer));
      var finished := Fire(bank, closed, 0);
      var reset := Fire(bank, finished, 0);
      && closed.pending == [AfterCorrect, DeferredReset]
      && finished.state.finished && finished.state.confetti
      && reset.state == State(0, None, 0, false, true) && reset.pending == []
  {
  }
}

=== FILE: wheel.dfy ===
/**
  The selection wheel: 34 numbered segments laid out once around a full
  circle, from which each spin draws one still-active segment and, when the
  spin's deferred completion runs, retires it. Sampling without replacement
  over a session of spins.
*/
module Wheel {
  import opened Options

  const SegmentCount: nat := 34
  /** Degrees spanned by one segment. */
  const AngleStep: real := 360.0 / 34.0
  const Palette: seq<string> := ["#c9a969", "#fce5ad", "#E6B325", "#f0e6d2"]

  /**
    One wedge. The SVG path and label coordinates are left out; the wedge is
    described by the angles they are computed from.
  */
  datatype Segment = Segment(
    number: int,
    color: string,
    startAngle: real,
    endAngle: real,
    labelAngle: real,
    largeArcFlag: nat,
    active: bool)

  datatype Wheel = Wheel(segments: seq<Segment>, rotation: real, spinning: bool, selectedNumber: Option<int>)

  /** The wheel as the component's signals start out, before `initializeWheel` runs. */
  const Blank: Wheel := Wheel([], 0.0, false, None)

  /** Segment `i` is numbered `i + 1`: numbers are unique. */
  predicate Numbered(segments: seq<Segment>) {
    forall i :: 0 <= i < |segments| ==> segments[i].number == i + 1
  }

  /** Segment `i` carries the colour and angles `initializeWheel` gives it. */
  predicate LaidOutAt(segments: seq<Segment>, i: nat)
    requires i < |segments|
  {
    && segments[i].color == Palette[i % |Palette|]
    && segments[i].startAngle == i as real * AngleStep
    && segments[i].endAngle == (i + 1) as real * AngleStep
    && segments[i].labelAngle == i as real * AngleStep + AngleStep / 2.0
    && segments[i].largeArcFlag == 0
  }

  predicate LaidOut(segments: seq<Segment>) {
    && |segments| == SegmentCount
    && Numbered(segments)
    && forall i :: 0 <= i < |segments| ==> LaidOutAt(segments, i)
  }

  /** `initializeWheel()`: builds the 34 segments, all active, and clears rotation and the last number. */
  method InitializeWheel(w: Wheel) returns (r: Wheel)
    ensures LaidOut(r.segments)
    ensures forall i :: 0 <= i < |r.segments| ==> r.segments[i].active
    ensures r.rotation == 0.0 && r.selectedNumber.None? && r.spinning == w.spinning
  {
    var segments: seq<Segment> := [];
    var i := 0;
    while i < SegmentCount
      invariant 0 <= i <= SegmentCount && |segments| == i
      invariant forall j :: 0 <= j < i ==> LaidOutAt(segments, j) && segments[j].active
      invariant Numbered(segments)
    {
      var angleStart := i as real * AngleStep;
      var angleEnd := (i + 1) as real * AngleStep;
      var largeArcFlag := if AngleStep > 180.0 then 1 else 0;
      var textAngle := angleStart + AngleStep / 2.0;
      segments := segments + [Segment(i + 1, Palette[i % |Palette|], angleStart, angleEnd, textAngle, largeArcFlag, true)];
      i := i + 1;
    }
    r := w.(segments := segments, rotation := 0.0, selectedNumber := None);
  }

  /** `ngOnInit()`: lays out the blank wheel, ready for its first spin. */
  method OnInit() returns (r: Wheel)
    ensures LaidOut(r.segments)
    ensures forall i :: 0 <= i < |r.segments| ==> r.segments[i].active
    ensures !r.spinning && r.rotation == 0.0 && r.selectedNumber.None?
  {
    r := InitializeWheel(Blank);
  }

  /** The label sits at the angular midpoint of its segment, and consecutive segments share a boundary. */
  lemma LabelsCentredAndSpansAbut(segments: seq<Segment>, i: nat)
    requires LaidOut(segments) && i < |segments|
    ensures segments[i].labelAngle == (segments[i].startAngle + segments[i].endAngle) / 2.0
    ensures segments[i].endAngle - segments[i].startAngle == AngleStep
    ensures i + 1 < |segments| ==> segments[i].endAngle == segments[i + 1].startAngle
    ensures i == 0 ==> segments[i].startAngle == 0.0
    ensures i == |segments| - 1 ==> segments[i].endAngle == 360.0
  {
    assert LaidOutAt(segments, i);
    if i + 1 < |segments| {
      assert LaidOutAt(segments, i + 1);
    }
  }

  /** The spans tile [0, 360): every angle lies in exactly one segment's span. */
  lemma SpansTileCircle(segments: seq<Segment>, a: real)
    requires LaidOut(segments) && 0.0 <= a < 360.0
    ensures exists i :: 0 <= i < |segments| && segments[i].startAngle <= a < segments[i].endAngle
    ensures forall i, j ::
      (&& 0 <= i < |segments| && 0 <= j < |segments|
       && segments[i].startAngle <= a < segments[i].endAngle
       && segments[j].startAngle <= a < segments[j].endAngle) ==> i == j
  {
    var x := a * 34.0 / 360.0;
    var k := x.Floor;
    assert k as real <= x < k as real + 1.0;
    assert 0 <= k < 34;
    assert LaidOutAt(segments, k);
    assert k as real * AngleStep <= a;
    assert a < (k + 1) as real * AngleStep;
    forall i, j | 0 <= i < |segments| && 0 <= j < |segments|
      && segments[i].startAngle <= a < segments[i].endAngle
      && segments[j].startAngle <= a < segments[j].endAngle
      ensures i == j
    {
      assert LaidOutAt(segments, i) && LaidOutAt(segments, j);
    }
  }

  /** Segment numbers strictly increase along the list. */
  predicate Increasing(segments: seq<Segment>) {
    forall i, j :: 0 <= i < j < |segments| ==> segments[i].number < segments[j].number
  }

  /** Numbering by position makes the numbers increase. */
  lemma NumberedIncreasing(segments: seq<Segment>)
    requires Numbered(segments)
    ensures Increasing(segments)
  {
  }

  /** `wheelSegments().filter(s => s.active)`: the active segments, in wheel order. */
  function ActiveSegments(segments: seq<Segment>): (r: seq<Segment>)
    ensures forall x :: x in r <==> x in segments && x.active
    ensures |r| <= |segments|
  {
    if |segments| == 0 then []
    else
      var rest := ActiveSegments(segments[1..]);
      if segments[0].active then [segments[0]] + rest else rest
  }

  /** The filter keeps every active segment as often as the wheel holds it, and no inactive one. */
  lemma {:induction false} ActiveSegmentsCounts(segments: seq<Segment>)
    ensures forall x :: multiset(ActiveSegments(segments))[x] == if x.active then multiset(segments)[x] else 0
  {
    if |segments| > 0 {
      assert segments == [segments[0]] + segments[1..];
      ActiveSegmentsCounts(segments[1..]);
    }
  }

  /** The filter keeps the wheel's order: an increasing wheel gives an increasing list. */
  lemma {:induction false} ActiveSegmentsKeepOrder(segments: seq<Segment>)
    ensures Increasing(segments) ==> Increasing(ActiveSegments(segments))
  {
    if |segments| > 0 {
      ActiveSegmentsKeepOrder(segments[1..]);
      if segments[0].active {
        FilterHeadBelow(segments, ActiveSegments(segments[1..]));
      }
    }
  }

  /** In an increasing list, the head's number is below that of every segment taken from the tail. */
  lemma FilterHeadBelow(segments: seq<Segment>, rest: seq<Segment>)
    requires |segments| > 0
    requires forall x :: x in rest ==> x in segments[1..]
    requires Increasing(segments[1..]) ==> Increasing(rest)
    ensures Increasing(segments) ==> Increasing([segments[0]] + rest)
  {
    if Increasing(segments) {
      var r := [segments[0]] + rest;
      forall i, j | 0 <= i < j < |r| ensures r[i].number < r[j].number {
        if i == 0 {
          assert r[j] == rest[j - 1] && rest[j - 1] in segments[1..];
          var m :| 0 <= m < |segments[1..]| && segments[1..][m] == rest[j - 1];
          assert segments[m + 1] == rest[j - 1];
        } else {
          assert r[i] == rest[i - 1] && r[j] == rest[j - 1];
        }
      }
    }
  }

  /** On a wheel numbered by position the filter keeps the wheel's order: numbers increase. */
  lemma ActiveSegmentsInOrder(segments: seq<Segment>)
    requires Numbered(segments)
    ensures forall i, j :: 0 <= i < j < |ActiveSegments(segments)| ==>
      ActiveSegments(segments)[i].number < ActiveSegments(segments)[j].number
  {
    NumberedIncreasing(segments);
    ActiveSegmentsKeepOrder(segments);
  }

  /** `areAllSegmentsInactive`. */
  predicate AllInactive(segments: seq<Segment>) {
    forall i :: 0 <= i < |segments| ==> !segments[i].active
  }

  /** The numbers that can still be drawn. */
  function ActiveNumbers(segments: seq<Segment>): set<int> {
    set i | 0 <= i < |segments| && segments[i].active :: segments[i].number
  }

  /** `Math.floor(u * n)` for the value `u` of `Math.random()`. */
  function DrawIndex(u: real, n: nat): (k: nat)
    requires 0.0 <= u < 1.0 && n > 0
    ensures k < n
  {
    var x := u * n as real;
    assert n as real - x == (1.0 - u) * n as real;
    assert (1.0 - u) * n as real > 0.0;
    x.Floor
  }

  /** The draw is uniform: index k is drawn exactly for `u` in [k/n, (k+1)/n), an interval of width 1/n. */
  lemma DrawIndexUniform(u: real, n: nat, k: nat)
    requires 0.0 <= u < 1.0 && n > 0 && k < n
    ensures DrawIndex(u, n) == k <==> k as real / n as real <= u < (k + 1) as real / n as real
  {
  }

  /** What `spinWheel` does at once, and the number its deferred completion will publish. */
  datatype Spin = Spin(wheel: Wheel, completion: Option<int>)

  /**
    `spinWheel()`. `u` is the value of the `Math.random()` call that picks
    the segment; `rotation` is the new wheel rotation, computed from the
    other two random draws, which this model leaves out.
  */
  function SpinWheel(w: Wheel, u: real, rotation: real): (r: Spin)
    requires 0.0 <= u < 1.0
    ensures w.spinning || AllInactive(w.segments) ==> r == Spin(w, None)
    ensures !w.spinning && !AllInactive(w.segments) ==>
      && r.completion.Some?
      && r.completion.value in ActiveNumbers(w.segments)
      && r.completion == Some(ActiveSegments(w.segments)[DrawIndex(u, |ActiveSegments(w.segments)|)].number)
      && r.wheel == w.(spinning := true, selectedNumber := None, rotation := rotation)
  {
    if w.spinning then Spin(w, None)
    else
      var active := ActiveSegments(w.segments);
      if |active| == 0 then Spin(w, None)
      else
        var chosen := active[DrawIndex(u, |active|)];
        assert chosen in w.segments;
        Spin(w.(spinning := true, selectedNumber := None, rotation := rotation), Some(chosen.number))
  }

  /** The deferred completion of a spin that drew `number`. */
  function CompleteSpin(w: Wheel, number: int): (r: Wheel)
    ensures |r.segments| == |w.segments|
    ensures forall i :: 0 <= i < |w.segments| ==>
      r.segments[i] == (if w.segments[i].number == number then w.segments[i].(active := false) else w.segments[i])
    ensures !r.spinning && r.selectedNumber == Some(number) && r.rotation == w.rotation
  {
    var segments := seq(|w.segments|, i requires 0 <= i < |w.segments| =>
      if w.segments[i].number == number then w.segments[i].(active := false) else w.segments[i]);
    w.(spinning := false, selectedNumber := Some(number), segments := segments)
  }

  /** Completing a spin retires exactly the drawn number and keeps the numbering. */
  lemma CompleteRetiresNumber(w: Wheel, number: int)
    requires Numbered(w.segments)
    ensures Numbered(CompleteSpin(w, number).segments)
    ensures ActiveNumbers(CompleteSpin(w, number).segments) == ActiveNumbers(w.segments) - {number}
  {
  }

  /** No segment active exactly when no number is left to draw. */
  lemma AllInactiveIffNoNumbers(segments: seq<Segment>)
    ensures AllInactive(segments) <==> ActiveNumbers(segments) == {}
  {
    if !AllInactive(segments) {
      var i :| 0 <= i < |segments| && segments[i].active;
      assert segments[i].number in ActiveNumbers(segments);
    }
  }

  /** One spin request: the value of `Math.random()` used for the draw, and the resulting rotation. */
  datatype Throw = Throw(u: real, rotation: real)

  /**
    One spin run to completion from a settled wheel: the wheel afterwards and
    the number published. Either nothing is left and nothing happens, or one
    active number is drawn and retired.
  */
  function SpinThenComplete(w: Wheel, t: Throw): (r: (Wheel, Option<int>))
    requires Numbered(w.segments) && !w.spinning && 0.0 <= t.u < 1.0
    ensures r.1.None? ==> r.0 == w && ActiveNumbers(w.segments) == {}
    ensures r.1.Some? ==>
      && r.1.value in ActiveNumbers(w.segments)
      && Numbered(r.0.segments) && !r.0.spinning
      && ActiveNumbers(r.0.segments) == ActiveNumbers(w.segments) - {r.1.value}
  {
    AllInactiveIffNoNumbers(w.segments);
    var spin := SpinWheel(w, t.u, t.rotation);
    match spin.completion
    case None => (spin.wheel, None)
    case Some(n) =>
      CompleteRetiresNumber(spin.wheel, n);
      (CompleteSpin(spin.wheel, n), Some(n))
  }

  predicate ValidThrows(throws: seq<Throw>) {
    forall i :: 0 <= i < |throws| ==> 0.0 <= throws[i].u < 1.0
  }

  function Min(a: nat, b: nat): nat {
    if a < b then a else b
  }

  /**
    A session of spins from a settled wheel, each run to completion before
    the next: the final wheel and the numbers published. Numbers never
    repeat; every published number was active at the start and is retired
    at the end; one number is retired per spin until none is left, and
    spins after that publish nothing.
  */
  function Play(w: Wheel, throws: seq<Throw>): (r: (Wheel, seq<int>))
    requires Numbered(w.segments) && !w.spinning && ValidThrows(throws)
    ensures Numbered(r.0.segments) && !r.0.spinning
    ensures forall i, j :: 0 <= i < j < |r.1| ==> r.1[i] != r.1[j]
    ensures forall x :: x in r.1 ==> x in ActiveNumbers(w.segments)
    ensures ActiveNumbers(r.0.segments) == ActiveNumbers(w.segments) - (set x | x in r.1)
    ensures |r.1| == Min(|throws|, |ActiveNumbers(w.segments)|)
    ensures |ActiveNumbers(r.0.segments)| == |ActiveNumbers(w.segments)| - |r.1|
    decreases |throws|
  {
    if |throws| == 0 then (w, [])
    else
      assert 0.0 <= throws[0].u < 1.0 && ValidThrows(throws[1..]);
      var round := SpinThenComplete(w, throws[0]);
      var next := round.0;
      match round.1
      case None => Play(next, throws[1..])
      case Some(n) =>
        var rest := Play(next, throws[1..]);
        DrawnStep(n, rest.1, |throws| - 1, ActiveNumbers(w.segments), ActiveNumbers(next.segments), ActiveNumbers(rest.0.segments));
        (rest.0, [n] + rest.1)
  }

  /** The bookkeeping of one more published number `n` in front of `later`, the numbers of `spins` further spins. */
  lemma DrawnStep(n: int, later: seq<int>, spins: nat, before: set<int>, middle: set<int>, after: set<int>)
    requires n in before && middle == before - {n}
    requires forall i, j :: 0 <= i < j < |later| ==> later[i] != later[j]
    requires forall x :: x in later ==> x in middle
    requires after == middle - (set x | x in later)
    requires |later| == Min(spins, |middle|) && |after| == |middle| - |later|
    ensures forall i, j :: 0 <= i < j < |[n] + later| ==> ([n] + later)[i] != ([n] + later)[j]
    ensures forall x :: x in [n] + later ==> x in before
    ensures after == before - (set x | x in [n] + later)
    ensures |[n] + later| == Min(spins + 1, |before|) && |after| == |before| - |[n] + later|
  {
    assert |middle| == |before| - 1;
  }

  /** The numbers 1..n. */
  function NumbersUpTo(n: nat): (r: set<int>)
    ensures forall x :: x in r <==> 1 <= x <= n
  {
    if n == 0 then {} else NumbersUpTo(n - 1) + {n}
  }

  /** The numbers 1..n form a set of n elements. */
  lemma {:induction false} NumbersUpToSize(n: nat)
    ensures |NumbersUpTo(n)| == n
  {
    if n > 0 {
      NumbersUpToSize(n - 1);
    }
  }

  /** A wheel whose segments are all active, numbered by position, can still draw every number from 1 to its size. */
  lemma AllActiveNumbers(segments: seq<Segment>)
    requires Numbered(segments)
    requires forall i :: 0 <= i < |segments| ==> segments[i].active
    ensures ActiveNumbers(segments) == NumbersUpTo(|segments|)
    ensures |ActiveNumbers(segments)| == |segments|
  {
    forall x | x in NumbersUpTo(|segments|) ensures x in ActiveNumbers(segments) {
      assert segments[x - 1].number == x;
    }
    NumbersUpToSize(|segments|);
  }

  /**
    From a freshly initialised wheel, 34 completed spins publish 34
    numbers, leave every segment inactive, and a 35th spin is a no-op.
  */
  lemma ThirtyFourSpinsExhaust(w: Wheel, throws: seq<Throw>, u: real, rotation: real)
    requires Numbered(w.segments) && |w.segments| == SegmentCount && !w.spinning
    requires forall i :: 0 <= i < |w.segments| ==> w.segments[i].active
    requires ValidThrows(throws) && |throws| == |w.segments| && 0.0 <= u < 1.0
    ensures |Play(w, throws).1| == SegmentCount
    ensures AllInactive(Play(w, throws).0.segments)
    ensures SpinWheel(Play(w, throws).0, u, rotation) == Spin(Play(w, throws).0, None)
  {
    AllActiveNumbers(w.segments);
    AllInactiveIffNoNumbers(Play(w, throws).0.segments);
  }
}
